=== FILE: README.md ===
# Job portal backend: workflow and authorization rules

This project is a Dafny model of the workflow and authorization rules of a small
job-portal backend. Users register and log in with bearer-token auth.
Employers post jobs and see who applied to them. Applicants apply to jobs, and a
notification is published after each successful application.

The persistence layer is an immutable value `Store = {users, jobs, applications}`
(sequences in insertion order). Every service operation is a pure function
`Store × inputs → Result<(Store, output), Error>`. A failed operation returns no
store, so the caller keeps the store it had; that is how "the store is
unchanged on error" is expressed. The read-only operations (`loginUser`,
`getAllJobs`, `getApplicantsByJobId`) return no store at all.

Modules follow the source files:

- `Domain` (domain.dfy): entities, errors and their messages, store lookups, and
  the store invariant `Valid`: unique ids and unique emails (the keys the
  services look rows up by), references that resolve (the relations the
  services include), and at most one application per (jobId, applicantId)
  pair. The pair condition is not a known database constraint; it is the
  invariant that the duplicate check in `applyJob` maintains. It also holds the two store
  primitives the services rely on: inserting a row whose foreign keys must
  resolve, and including a required user relation.
- `ApplicationService`, `JobService`, `AuthService`: the three service files.
- `AuthMiddleware`: `authenticateToken`.
- `AuthController`, `JobController`: the controllers, as functions from service
  results to a status code and a body (`Http`). `JobController` also returns the
  notifications published during a request.
- `Notification`: the text of the application notification and a reader that
  recovers both ids from it.
- `Crypto`: bcrypt and jsonwebtoken as abstract capabilities. The hash is a
  symbolic digest that only `Compare` inspects. `sign` and `verify` are
  parameters of the operations that use them. `SoundTokens` is the assumption
  that a token verified with its signing key yields its payload, and that
  every signed token is non-empty and contains no space (so it survives the
  `split(' ')` of the Authorization header).
- `Text`, `Seqs`, `Wrappers`: JavaScript string behaviour (`includes`,
  `split(' ')`, `join`, decimal rendering), first-match and filter, and the
  Option/Result types.
- `Scenario`: end-to-end walks through the handlers.

Notes on what the code does:

- The notification is sent by the controller
  (src/controllers/jobController.ts:46-48), not by applicationService.
- "Job not found" from the applicants listing answers 400
  (src/controllers/jobController.ts:79). 403 is chosen by a substring test on
  the error message (src/controllers/jobController.ts:76), not by the error's
  kind.
- A zero user id counts as "no caller", because `!userId` is true for 0
  (src/controllers/jobController.ts:11, 40, 65).
- The scheme word of the Authorization header is never checked
  (src/middlewares/authMiddleware.ts:13). `Basic x` carries the token `x` just
  as `Bearer x` does.

## Model

| member | source | states |
|---|---|---|
| Crypto.Hash | src/services/authService.ts:18 | the stored digest uses cost 10 and verifies exactly the password it was made from, and no other |
| Crypto.JwtSecret | src/services/authService.ts:56 | the signing key is the JWT_SECRET variable when set and non-empty, otherwise "secret" |
| Domain.InsertApplication | src/services/applicationService.ts:23-28 | creating an application succeeds iff its job and applicant exist; on success it appends one row with a fresh id and those two ids, and nothing else changes |
| Domain.IncludeUserJoins | src/services/jobService.ts:23-31 | including a required user relation keeps the rows and their order, and joins each row with the user its reference names; it fails iff some reference names no user |
| ApplicationService.ApplyJob | src/services/applicationService.ts:5-29 | a missing job fails with "Pekerjaan tidak ditemukan!" before anything else is checked; an existing pair then fails with the already-applied error; otherwise exactly one application {jobId, applicantId} is appended and returned; no role is checked |
| ApplicationService.PairCountAtMostOne | src/services/applicationService.ts:12-21 | under the pair constraint each (jobId, applicantId) pair is held at most once, and exactly once when it has applied |
| ApplicationService.ApplyJobPreservesValid | src/services/applicationService.ts:12-28 | a successful application keeps every store constraint, including at most one application per pair |
| ApplicationService.ApplyTwice | src/services/applicationService.ts:12-21 | applying twice: the first call succeeds, the second fails with the already-applied error, and the pair is then held exactly once |
| ApplicationService.ApplicationsOf | src/services/applicationService.ts:42-43 | the applications kept are exactly those of the store whose jobId matches |
| ApplicationService.GetApplicantsByJobId | src/services/applicationService.ts:31-54 | a missing job fails with the not-found error; a caller who is not the job's employer fails with the access error; the owner gets exactly the job's applications in store order, each joined with its applicant's id, name and email only |
| ApplicationService.ListingIsExactlyTheJobsApplications | src/services/applicationService.ts:42-53 | an application appears in the owner's listing iff it is in the store and filed for that job |
| ApplicationService.OwnerSeesApplication | src/services/applicationService.ts:38-53 | in a valid store the job's employer always gets a listing, and it contains every application filed for the job |
| ApplicationService.NonOwnerRefused | src/services/applicationService.ts:38-40 | a caller who is not the employer of an existing job is refused with the access error, however many applications exist |
| JobService.CreateJob | src/services/jobService.ts:13-20 | a new job with a fresh id is appended; its title, description, company, location and salary are the input's and its employer is the caller; it fails only when the caller is not a stored user |
| JobService.CreateJobIgnoresClaimedEmployer | src/services/jobService.ts:14-19 | an employerId in the request body has no effect, because the caller's id is written after the spread |
| JobService.CreateJobPreservesValid | src/services/jobService.ts:13-20 | posting a job keeps every store constraint |
| JobService.GetAllJobs | src/services/jobService.ts:22-33 | every job of the store is listed in store order, each with its employer's name and email only; it succeeds iff every employer exists |
| JobService.PostedJobIsListed | src/services/jobService.ts:13-33 | after posting, the listing has one more entry: the new job, shown with its employer |
| AuthService.CoerceRole | src/services/authService.ts:25 | the role is EMPLOYER iff the request's role is exactly "EMPLOYER"; any other value, absent included, gives APPLICANT |
| AuthService.RegisterUser | src/services/authService.ts:7-35 | fails with "Email sudah terdaftar!" iff the email is registered; otherwise appends exactly one user with a fresh id, the digest of the password and the coerced role, and returns only id, name, email and role |
| AuthService.RegisterPreservesValid | src/services/authService.ts:10-27 | registration keeps every store constraint, unique emails included |
| AuthService.RegisterTwiceFails | src/services/authService.ts:10-16 | registering the same email a second time fails with the duplicate-email error |
| AuthService.LoginUser | src/services/authService.ts:37-69 | every failure is the single "Email atau password salah!" error; an unknown email fails; a success belongs to a stored user whose digest matches the password, returns that user without the password, and signs {userId, role} with the configured key for 3600 seconds |
| AuthService.LoginSucceedsIff | src/services/authService.ts:40-52 | with unique emails, login succeeds iff some user has that email and that password |
| AuthService.LoginFailuresIndistinguishable | src/services/authService.ts:44-52 | an unknown email and a wrong password produce the identical result |
| AuthService.RegisterThenLogin | src/services/authService.ts:18-58 | after registering, the registered password logs in as the registered user with a token for its id and role; any other password fails |
| AuthController.RegisterResponse | src/controllers/authController.ts:5-18 | success answers 201 with the service's user; any failure answers 400 with its message |
| AuthController.LoginResponse | src/controllers/authController.ts:20-33 | success answers 200 with {user, token}; any failure answers 401 with its message |
| AuthController.Register | src/controllers/authController.ts:5-18 | the handler answers 400 with the duplicate-email message iff the email is registered, changing nothing; otherwise 201, and the store and user are exactly those the registration service produced |
| AuthController.Login | src/controllers/authController.ts:20-33 | with unique emails the handler answers 200 exactly for a stored user with that email and password (a 200 always names such a user); a 200 carries exactly the service's user and signed token, and otherwise 401 with the one login error |
| AuthController.GetProfile | src/controllers/authController.ts:35-43 | the profile echoes exactly the userId and role of the token payload, with status 200 |
| AuthMiddleware.BearerToken | src/middlewares/authMiddleware.ts:12-13 | the token is the second space-separated part of the header; it exists iff the header is present and that part exists and is non-empty |
| AuthMiddleware.Authenticate | src/middlewares/authMiddleware.ts:11-29 | no token answers 401; a token that fails verification answers 403; a verified token calls next once, with the decoded payload as the user |
| AuthMiddleware.BearerTokenOfHeader | src/middlewares/authMiddleware.ts:13 | a header "<scheme> <token>" carries exactly the token, whatever the scheme word |
| AuthMiddleware.BearerTokenIgnoresTail | src/middlewares/authMiddleware.ts:13 | parts after the second are ignored |
| AuthMiddleware.TrailingPartsIgnored | src/middlewares/authMiddleware.ts:13 | "Bearer a b" carries the token "a" |
| AuthMiddleware.NoTokenWithoutSecondPart | src/middlewares/authMiddleware.ts:13-17 | a header without a space has no token; "<word> <rest>" has none iff rest is empty or starts with a space |
| AuthMiddleware.SignedTokenPasses | src/middlewares/authMiddleware.ts:19-25 | under a sound sign/verify pair, "Bearer " followed by a token signed with the configured key passes with that token's payload |
| Domain.Message | src/services/applicationService.ts:10-39 | the access error's message contains "tidak memiliki akses"; the not-found and already-applied messages, and the duplicate-email and login messages of authService.ts:15,45,51, do not |
| Domain.IncludeUser | src/services/applicationService.ts:42-53 | including the applicant (and, through the same primitive, the employer at jobService.ts:23-31) fails only with the inconsistent-result error, and otherwise gives one joined row per input row |
| Text.Split | src/middlewares/authMiddleware.ts:13 | `split(' ')` always yields at least one part and no part contains a space |
| Text.IntToDecimal | src/controllers/jobController.ts:46 | an id renders as a non-empty run of digits and minus signs |
| Text.JoinSplit | src/middlewares/authMiddleware.ts:13 | splitting on a character loses nothing: joining the parts gives back the header |
| Text.SplitJoin | src/middlewares/authMiddleware.ts:13 | joining separator-free parts and splitting again gives back the parts |
| Text.IntDecimalRoundTrip | src/controllers/jobController.ts:46 | the decimal rendering of an id reads back as the same integer |
| Notification.ApplicationMessage | src/controllers/jobController.ts:46 | the notification text names the application unambiguously: both ids can be read back out of it |
| Notification.ApplicationMessageMentionsIds | src/controllers/jobController.ts:46 | the notification text contains the user id and the job id in decimal |
| JobController.CallerId | src/controllers/jobController.ts:9-11 | the controllers see a caller iff a payload is present and its userId is non-zero (truthy) |
| JobController.CreateJob | src/controllers/jobController.ts:7-24 | no caller answers 401 and creates nothing; success answers 201 with exactly the job the service created, owned by the caller, and the service's store; a persistence failure answers 500 with its message and changes nothing |
| JobController.GetAllJobs | src/controllers/jobController.ts:26-33 | answers 200 with every job in store order iff every employer exists, the body being exactly the service's listing with each employer's name and email; otherwise 500; the store is not changed |
| JobController.ApplyJob | src/controllers/jobController.ts:35-58 | no caller answers 401 without calling the service; a notification is published iff the answer is 201, and it names both ids; a successful service call always answers 201 with the created application, keeps the service's store and publishes exactly the notification naming both ids; any service error answers 400, publishes nothing and keeps the store |
| JobController.ApplicantsErrorStatus | src/controllers/jobController.ts:75-80 | an error answers 403 iff its message contains "tidak memiliki akses", and 400 otherwise |
| JobController.GetJobApplicants | src/controllers/jobController.ts:60-81 | no caller answers 401; a 200 answer has total_applicants equal to the length of data, and data is exactly the service's entries: the job's applications with their applicants' summaries; errors are mapped by the substring test |
| JobController.NoAccessIs403 | src/controllers/jobController.ts:76-78 | the service's access error selects 403 |
| JobController.OtherListingErrorsAre400 | src/controllers/jobController.ts:79 | the not-found error and a failed include answer 400 |
| JobController.ApplicantsStatusByCase | src/controllers/jobController.ts:75-80 | combined with the service: a missing job answers 400 and a caller who does not own the job answers 403 |
| Scenario.FirstApplicationAccepted | src/controllers/jobController.ts:44-53 | a first application answers 201, publishes one notification naming both ids, and leaves a valid store |
| Scenario.SecondApplicationRefused | src/controllers/jobController.ts:55-57 | applying again answers 400 with the already-applied message, publishes nothing, and the pair is held once |
| Scenario.OwnerListsApplication | src/controllers/jobController.ts:67-73 | after an application, the job's employer gets a 200 listing that contains it |
| Scenario.ApplicantRefusedListing | src/controllers/jobController.ts:76-78 | after an application, the applicant asking for the job's listing gets 403 |
| Scenario.ApplicationWorkflow | src/controllers/jobController.ts:35-81 | the whole walk: apply (201, notified), apply again (400, not notified, pair held once), owner lists (sees it), applicant lists (403) |
| Scenario.RegisterLoginProfile | src/controllers/authController.ts:20-42 | register, log in, send "Bearer <token>": the middleware passes the registered user's id and role, and the profile echoes them |

## Left out

- Prisma internals and the module-level `PrismaClient` instances. The store is an
  immutable value, and the Prisma schema file is not part of this model. The model
  assumes these foreign keys: an application names a job and a user, and a job
  names its employer. The texts of the two
  persistence-layer errors ("Foreign key constraint failed", "Inconsistent query
  result") are placeholders for Prisma's wording. The model only relies on them
  not containing "tidak memiliki akses".
- Store-level uniqueness on insert (a duplicate email refused by the database
  itself). The model checks before inserting, as the services do, and proves
  the invariant is kept; the one-application-per-pair condition rests on the
  duplicate check in `applyJob` alone.
- bcrypt internals: salting and the real cost. `Crypto.Hash` is an idealised,
  collision-free symbolic digest.
- Crypto.Hash: real bcrypt reads only the first 72 bytes of the UTF-8 password,
  so two passwords that agree on those bytes verify against the same digest.
  The model's digest tells every pair of distinct passwords apart; strings are
  sequences of characters, and their UTF-8 byte length is not modelled.
- AuthService.RegisterThenLogin: "any other password fails" holds for the
  idealised digest only; with real bcrypt a password that shares the first 72
  UTF-8 bytes of the registered one also logs in (see `Crypto.Hash` above).
- Text.IntToDecimal: ids are unbounded integers. JavaScript numbers are
  doubles, so `${n}` writes an exponent form from 1e21 on and ids beyond 2^53
  lose precision; neither is modelled.
- jsonwebtoken internals: the token format, the signature and the expiry clock.
  `sign` and `verify` are parameters, and expiry is part of what `verify`
  decides. The one-hour lifetime (`expiresIn: '1h'`,
  src/services/authService.ts:57) is only passed to `sign`; that a token
  verifies within it is the `SoundTokens` assumption.
- The RabbitMQ publish in src/services/notificationService.ts: the connection,
  the channel, the queue, the delayed close and the logging. A notification is
  recorded as published when the controller calls `sendNotification`. The call is
  not awaited and swallows its own errors, so it can never change the response.
- `parseInt` of the path id (NaN and partial parses). Job ids are integers.
- The race between the duplicate check and the insert under concurrent
  requests. The model is sequential.
- Request bodies typed `any`: non-string fields and missing fields. A job body's
  extra fields other than `employerId` (an `id`, for instance) would be spread
  into the row too. `JobInput` carries only the five job fields and `employerId`.
- Express wiring in src/server.ts and src/routes/*.ts. Note that src/server.ts:13
  mounts only the auth routes, so the job routes are never reachable over HTTP.
- The 500 branch of `getAllJobs` for a failing database. Only the failed include
  of a dangling employer is modelled, and it cannot happen in a valid store.

=== FILE: application_service.dfy ===
/** Applying to a job and listing a job's applicants (applicationService). */
module ApplicationService {
  import opened Wrappers
  import opened Seqs
  import opened Domain

  /** `applyJob(jobId, applicantId)`: the job must exist, then the pair must be
      new, then the row is inserted.  No role is checked. */
  function ApplyJob(s: Store, jobId: int, applicantId: int): (r: Result<(Store, Application), Error>)
    ensures !HasJob(s, jobId) ==> r == Failure(JobNotFound)
    ensures HasJob(s, jobId) && Applied(s, jobId, applicantId) ==> r == Failure(AlreadyApplied)
    ensures HasJob(s, jobId) && !Applied(s, jobId, applicantId) && !HasUser(s, applicantId) ==>
      r == Failure(Persistence(ForeignKeyFailure))
    ensures r.Success? <==> HasJob(s, jobId) && !Applied(s, jobId, applicantId) && HasUser(s, applicantId)
    ensures r.Success? ==>
      && r.value.1.jobId == jobId
      && r.value.1.applicantId == applicantId
      && (forall a :: a in s.applications ==> a.id != r.value.1.id)
      && r.value.0 == s.(applications := s.applications + [r.value.1])
  {
    if JobById(s, jobId).None? then Failure(JobNotFound)
    else if ApplicationFor(s, jobId, applicantId).Some? then Failure(AlreadyApplied)
    else InsertApplication(s, jobId, applicantId)
  }

  /** The number of applications a store holds for one (job, applicant) pair. */
  function PairCount(s: Store, jobId: int, applicantId: int): nat {
    |Filter(s.applications, (a: Application) => a.jobId == jobId && a.applicantId == applicantId)|
  }

  /** Under the pair constraint a pair is held at most once, and exactly once when applied. */
  lemma PairCountAtMostOne(s: Store, jobId: int, applicantId: int)
    requires UniquePairs(s)
    ensures PairCount(s, jobId, applicantId) <= 1
    ensures Applied(s, jobId, applicantId) ==> PairCount(s, jobId, applicantId) == 1
  {
    FilterAtMostOne(s.applications, (a: Application) => a.jobId == jobId && a.applicantId == applicantId);
  }

  /** A successful application keeps every constraint of the store, in
      particular at most one application per pair. */
  lemma ApplyJobPreservesValid(s: Store, jobId: int, applicantId: int)
    requires Valid(s)
    requires ApplyJob(s, jobId, applicantId).Success?
    ensures Valid(ApplyJob(s, jobId, applicantId).value.0)
  {
    var (s', a) := ApplyJob(s, jobId, applicantId).value;
    var n := |s.applications|;
    forall i, j | 0 <= i < j < |s'.applications|
      ensures s'.applications[i].jobId != s'.applications[j].jobId
           || s'.applications[i].applicantId != s'.applications[j].applicantId
      ensures s'.applications[i].id != s'.applications[j].id
    {
      if j == n {
        assert s'.applications[i] in s.applications;
      }
    }
    forall b | b in s'.applications
      ensures HasJob(s', b.jobId) && HasUser(s', b.applicantId)
    {
      if b != a {
        assert b in s.applications;
      }
    }
  }

  /** Applying twice: the first call succeeds, the second fails with the
      already-applied error, and the store then holds the pair exactly once. */
  lemma ApplyTwice(s: Store, jobId: int, applicantId: int)
    requires Valid(s)
    requires HasJob(s, jobId) && HasUser(s, applicantId) && !Applied(s, jobId, applicantId)
    ensures ApplyJob(s, jobId, applicantId).Success?
    ensures ApplyJob(ApplyJob(s, jobId, applicantId).value.0, jobId, applicantId) == Failure(AlreadyApplied)
    ensures PairCount(ApplyJob(s, jobId, applicantId).value.0, jobId, applicantId) == 1
  {
    var (s', a) := ApplyJob(s, jobId, applicantId).value;
    assert a in s'.applications;
    assert HasJob(s', jobId) by {
      var j :| j in s.jobs && j.id == jobId;
      assert j in s'.jobs;
    }
    ApplyJobPreservesValid(s, jobId, applicantId);
    PairCountAtMostOne(s', jobId, applicantId);
  }

  /** An applicant as a listing shows them: never the password. */
  datatype ApplicantSummary = ApplicantSummary(id: int, name: string, email: string)

  /** One row of `getApplicantsByJobId`: the application with its applicant. */
  datatype ApplicantEntry = ApplicantEntry(application: Application, applicant: ApplicantSummary)

  function Summary(u: User): ApplicantSummary {
    ApplicantSummary(u.id, u.name, u.email)
  }

  /** The applications filed for `jobId`, in store order. */
  function ApplicationsOf(s: Store, jobId: int): (r: seq<Application>)
    ensures forall a :: a in r <==> a in s.applications && a.jobId == jobId
  {
    Filter(s.applications, (a: Application) => a.jobId == jobId)
  }

  /** The applications a list of entries is made of. */
  function EntryApplications(entries: seq<ApplicantEntry>): (r: seq<Application>)
    ensures |r| == |entries|
    ensures forall i :: 0 <= i < |entries| ==> r[i] == entries[i].application
  {
    if |entries| == 0 then [] else [entries[0].application] + EntryApplications(entries[1..])
  }

  /** The entry shows the id, name and email of the user who filed its application. */
  predicate ApplicantShown(s: Store, e: ApplicantEntry) {
    exists u :: u in s.users && u.id == e.application.applicantId && e.applicant == Summary(u)
  }

  /** `getApplicantsByJobId(jobId, userId)`: the job must exist, the caller must
      be its employer, and then every application to it is listed with its
      applicant. */
  function GetApplicantsByJobId(s: Store, jobId: int, userId: int): (r: Result<seq<ApplicantEntry>, Error>)
    ensures !HasJob(s, jobId) ==> r == Failure(JobNotFound)
    ensures HasJob(s, jobId) && JobById(s, jobId).value.employerId != userId ==> r == Failure(NoAccess)
    ensures r.Success? ==>
      && HasJob(s, jobId)
      && JobById(s, jobId).value.employerId == userId
      && EntryApplications(r.value) == ApplicationsOf(s, jobId)
      && (forall i :: 0 <= i < |r.value| ==> ApplicantShown(s, r.value[i]))
    ensures HasJob(s, jobId) && JobById(s, jobId).value.employerId == userId && ApplicationsResolve(s) ==>
      r.Success?
  {
    match JobById(s, jobId)
    case None => Failure(JobNotFound)
    case Some(job) =>
      if job.employerId != userId then Failure(NoAccess)
      else
        var apps := ApplicationsOf(s, jobId);
        var ref := (a: Application) => a.applicantId;
        var attach := (a: Application, u: User) => ApplicantEntry(a, Summary(u));
        var r := IncludeUser(s, apps, ref, attach);
        IncludeUserJoins(s, apps, ref, attach);
        assert r.Success? ==> forall i :: 0 <= i < |apps| ==> r.value[i].application == apps[i] && ApplicantShown(s, r.value[i]);
        assert r.Success? ==> EntryApplications(r.value) == apps;
        r
  }

  /** Every application to the job appears in the owner's listing, and nothing else does. */
  lemma ListingIsExactlyTheJobsApplications(s: Store, jobId: int, userId: int, a: Application)
    requires GetApplicantsByJobId(s, jobId, userId).Success?
    ensures (exists i :: 0 <= i < |GetApplicantsByJobId(s, jobId, userId).value|
               && GetApplicantsByJobId(s, jobId, userId).value[i].application == a)
            <==> a in s.applications && a.jobId == jobId
  {
    var entries := GetApplicantsByJobId(s, jobId, userId).value;
    var apps := EntryApplications(entries);
    if a in s.applications && a.jobId == jobId {
      var i :| 0 <= i < |apps| && apps[i] == a;
      assert entries[i].application == a;
    }
  }

  /** In a valid store the owner of a job is shown every application to it. */
  lemma OwnerSeesApplication(s: Store, job: Job, a: Application)
    requires Valid(s)
    requires job in s.jobs && a in s.applications && a.jobId == job.id
    ensures GetApplicantsByJobId(s, job.id, job.employerId).Success?
    ensures exists i :: 0 <= i < |GetApplicantsByJobId(s, job.id, job.employerId).value|
                        && GetApplicantsByJobId(s, job.id, job.employerId).value[i].application == a
  {
    JobByIdFinds(s, job);
    ListingIsExactlyTheJobsApplications(s, job.id, job.employerId, a);
  }

  /** Ownership is the only gate: a non-owner is refused whatever the store
      holds for the job, as long as the job exists. */
  lemma NonOwnerRefused(s: Store, jobId: int, userId: int)
    requires UniqueJobIds(s)
    requires exists j :: j in s.jobs && j.id == jobId && j.employerId != userId
    ensures GetApplicantsByJobId(s, jobId, userId) == Failure(NoAccess)
  {
    var j :| j in s.jobs && j.id == jobId && j.employerId != userId;
    JobByIdFinds(s, j);
  }
}

=== FILE: auth_controller.dfy ===
/** `register`, `login` and `getProfile` (authController): service results
    mapped to responses. */
module AuthController {
  import opened Wrappers
  import opened Domain
  import opened Http
  import Crypto
  import AuthService

  const RegisteredMessage := "Register berhasil!"
  const LoggedInMessage := "Login berhasil!"
  const ProfileMessage := "Ini adalah data profil Anda"

  /** The response `register` sends for a registration result. */
  function RegisterResponse(r: Result<PublicUser, Error>): (resp: Response)
    ensures r.Success? <==> resp.status == 201
    ensures r.Success? ==> resp.body == Registered(RegisteredMessage, r.value)
    ensures r.Failure? ==> resp == Response(400, ErrorBody(Message(r.error)))
  {
    match r
    case Success(user) => Response(201, Registered(RegisteredMessage, user))
    case Failure(e) => Response(400, ErrorBody(Message(e)))
  }

  /** The response `login` sends for a login result. */
  function LoginResponse(r: Result<AuthService.Session, Error>): (resp: Response)
    ensures r.Success? <==> resp.status == 200
    ensures r.Success? ==> resp.body == LoggedIn(LoggedInMessage, r.value.user, r.value.token)
    ensures r.Failure? ==> resp == Response(401, ErrorBody(Message(r.error)))
  {
    match r
    case Success(session) => Response(200, LoggedIn(LoggedInMessage, session.user, session.token))
    case Failure(e) => Response(401, ErrorBody(Message(e)))
  }

  /** `POST /register`: the store after the request and the response. */
  function Register(s: Store, reg: AuthService.Registration): (out: (Store, Response))
    ensures out.1.status == 201 || out.1.status == 400
    ensures out.1.status == 400 <==> EmailRegistered(s, reg.email)
    ensures out.1.status == 400 ==> out == (s, Response(400, ErrorBody("Email sudah terdaftar!")))
    ensures out.1.status == 201 ==>
      && |out.0.users| == |s.users| + 1
      && out.1.body.Registered?
      && out.1.body.user == Public(out.0.users[|s.users|])
    ensures AuthService.RegisterUser(s, reg).Success? ==>
      out == (AuthService.RegisterUser(s, reg).value.0,
              Response(201, Registered(RegisteredMessage, AuthService.RegisterUser(s, reg).value.1)))
  {
    match AuthService.RegisterUser(s, reg)
    case Success((s', user)) => (s', RegisterResponse(Success(user)))
    case Failure(e) => (s, RegisterResponse(Failure(e)))
  }

  /** `POST /login`: reads the store and changes nothing. */
  function Login(s: Store, cred: AuthService.Credentials, secretEnv: Option<string>,
                 sign: Crypto.SignRequest -> string): (resp: Response)
    ensures resp.status == 200 || resp == Response(401, ErrorBody("Email atau password salah!"))
    ensures resp.status == 200 ==>
      exists u :: u in s.users && u.email == cred.email && Crypto.Compare(cred.password, u.password)
        && resp.body.LoggedIn? && resp.body.user == Public(u)
    ensures UniqueEmails(s)
      && (exists u :: u in s.users && u.email == cred.email && Crypto.Compare(cred.password, u.password))
      ==> resp.status == 200
    ensures var r := AuthService.LoginUser(s, cred, secretEnv, sign);
      r.Success? ==> resp == Response(200, LoggedIn(LoggedInMessage, r.value.user, r.value.token))
  {
    var r := AuthService.LoginUser(s, cred, secretEnv, sign);
    assert UniqueEmails(s) ==>
      (r.Success? <==> exists u :: u in s.users && u.email == cred.email && Crypto.Compare(cred.password, u.password))
    by {
      if UniqueEmails(s) {
        AuthService.LoginSucceedsIff(s, cred, secretEnv, sign);
      }
    }
    LoginResponse(r)
  }

  /** `GET /profile`: echoes the payload the middleware set, with no check. */
  function GetProfile(user: Option<Crypto.Claims>): (resp: Response)
    ensures resp.status == DefaultStatus
    ensures resp.body.Profile?
    ensures user.Some? ==> resp.body.userIdFromToken == Some(user.value.userId)
                           && resp.body.roleFromToken == Some(user.value.role)
    ensures user.None? ==> resp.body.userIdFromToken.None? && resp.body.roleFromToken.None?
  {
    match user
    case Some(c) => Response(DefaultStatus, Profile(ProfileMessage, Some(c.userId), Some(c.role)))
    case None => Response(DefaultStatus, Profile(ProfileMessage, None, None))
  }
}

=== FILE: auth_middleware.dfy ===
/** `authenticateToken`: the bearer token is the second space-separated part
    of the Authorization header; no token answers 401, a token that does not
    verify answers 403, a verified token passes its payload on. */
module AuthMiddleware {
  import opened Wrappers
  import opened Text
  import Crypto

  const MissingTokenMessage := "Akses ditolak! Token tidak ada."
  const InvalidTokenMessage := "Token tidak valid atau kadaluarsa."

  /** What the middleware does with a request: answer it, or call `next` once
      with the decoded payload set as the request's user. */
  datatype Decision = Reject(status: int, error: string) | Next(user: Crypto.Claims)

  /** `authHeader && authHeader.split(' ')[1]`, read as a truthy token: an
      absent or empty header, a header without a space and an empty second part
      all give no token. */
  function BearerToken(header: Option<string>): (t: Option<string>)
    ensures t.Some? ==> t.value != "" && ' ' !in t.value
    ensures t.Some? ==> header.Some? && |Split(header.value, ' ')| >= 2 && Split(header.value, ' ')[1] == t.value
    ensures header.Some? && |Split(header.value, ' ')| >= 2 && Split(header.value, ' ')[1] != "" ==> t.Some?
  {
    if header.None? || header.value == "" then None
    else
      var parts := Split(header.value, ' ');
      if |parts| < 2 || parts[1] == "" then None else Some(parts[1])
  }

  /** `authenticateToken(req, res, next)`; `verify(token, secret)` stands for
      `jwt.verify`, expiry included. */
  function Authenticate(header: Option<string>, secretEnv: Option<string>,
                        verify: (string, string) -> Option<Crypto.Claims>): (d: Decision)
    ensures BearerToken(header).None? <==> d == Reject(401, MissingTokenMessage)
    ensures d.Reject? && d.status == 403 <==>
      BearerToken(header).Some? && verify(BearerToken(header).value, Crypto.JwtSecret(secretEnv)).None?
    ensures d.Next? <==>
      BearerToken(header).Some? && verify(BearerToken(header).value, Crypto.JwtSecret(secretEnv)).Some?
    ensures d.Next? ==> d.user == verify(BearerToken(header).value, Crypto.JwtSecret(secretEnv)).value
    ensures d.Reject? ==> d.status == 401 || d == Reject(403, InvalidTokenMessage)
  {
    match BearerToken(header)
    case None => Reject(401, MissingTokenMessage)
    case Some(token) =>
      match verify(token, Crypto.JwtSecret(secretEnv))
      case None => Reject(403, InvalidTokenMessage)
      case Some(claims) => Next(claims)
  }

  /** A header `<scheme> <token>` carries exactly `<token>`; the scheme word is not checked. */
  lemma BearerTokenOfHeader(scheme: string, token: string)
    requires ' ' !in scheme && ' ' !in token && token != ""
    ensures BearerToken(Some(scheme + " " + token)) == Some(token)
  {
    assert scheme + " " + token == Join([scheme, token], ' ');
    SplitJoin([scheme, token], ' ');
  }

  /** Parts after the token are ignored: `<scheme> <token> <tail>` carries `<token>`. */
  lemma BearerTokenIgnoresTail(scheme: string, token: string, tail: string)
    requires ' ' !in scheme && ' ' !in token && token != ""
    ensures BearerToken(Some(scheme + " " + token + " " + tail)) == Some(token)
  {
    assert scheme + " " + token + " " + tail == scheme + [' '] + (token + [' '] + tail);
    SplitCons(scheme, ' ', token + [' '] + tail);
    SplitCons(token, ' ', tail);
  }

  /** "Bearer a b" carries the token "a". */
  lemma TrailingPartsIgnored()
    ensures BearerToken(Some("Bearer a b")) == Some("a")
  {
    BearerTokenIgnoresTail("Bearer", "a", "b");
    assert "Bearer" + " " + "a" + " " + "b" == "Bearer a b";
  }

  /** A header without a space carries no token, and neither does one whose
      second part is empty ("Bearer " or "Bearer  x"). */
  lemma NoTokenWithoutSecondPart(word: string, rest: string)
    requires ' ' !in word
    ensures BearerToken(Some(word)) == None
    ensures BearerToken(Some(word + " " + rest)).None? <==> rest == "" || rest[0] == ' '
  {
    SplitPlain(word, ' ');
    SplitCons(word, ' ', rest);
    assert word + " " + rest == word + [' '] + rest;
    var parts := Split(rest, ' ');
    if rest != "" && rest[0] != ' ' {
      assert parts[0] != "";
    }
    if rest != "" && rest[0] == ' ' {
      assert parts[0] == "";
    }
  }

  /** A token signed at login passes the middleware with its payload, when the
      sign/verify pair is sound and the header is `Bearer <token>`. */
  lemma SignedTokenPasses(req: Crypto.SignRequest, secretEnv: Option<string>,
                          sign: Crypto.SignRequest -> string,
                          verify: (string, string) -> Option<Crypto.Claims>)
    requires Crypto.SoundTokens(sign, verify)
    requires req.secret == Crypto.JwtSecret(secretEnv)
    ensures Authenticate(Some("Bearer " + sign(req)), secretEnv, verify) == Next(req.payload)
  {
    assert verify(sign(req), req.secret) == Some(req.payload);
    BearerTokenOfHeader("Bearer", sign(req));
    assert "Bearer" + " " + sign(req) == "Bearer " + sign(req);
  }
}

=== FILE: auth_service.dfy ===
/** Registration and login (authService).  Hashing is the symbolic digest of
    the Crypto module; signing is a parameter. */
module AuthService {
  import opened Wrappers
  import opened Seqs
  import opened Domain
  import Crypto

  /** The body of a registration request; `role` is whatever the client sent,
      absent included. */
  datatype Registration = Registration(name: string, email: string, password: string, role: Option<string>)

  /** The body of a login request. */
  datatype Credentials = Credentials(email: string, password: string)

  /** What login hands back: the public fields of the user and a signed token. */
  datatype Session = Session(user: PublicUser, token: string)

  /** `role === "EMPLOYER" ? EMPLOYER : APPLICANT`. */
  function CoerceRole(role: Option<string>): (r: Role)
    ensures r == EMPLOYER <==> role == Some("EMPLOYER")
    ensures r == APPLICANT <==> role != Some("EMPLOYER")
  {
    if role == Some("EMPLOYER") then EMPLOYER else APPLICANT
  }

  /** `registerUser(data)`: refuses a registered email; otherwise stores one new
      user with the hashed password and the coerced role, and returns its
      public fields. */
  function RegisterUser(s: Store, reg: Registration): (r: Result<(Store, PublicUser), Error>)
    ensures r.Failure? <==> EmailRegistered(s, reg.email)
    ensures r.Failure? ==> r.error == EmailTaken
    ensures r.Success? ==>
      var (s', pub) := r.value;
      && |s'.users| == |s.users| + 1
      && s'.users[..|s.users|] == s.users
      && s'.jobs == s.jobs
      && s'.applications == s.applications
      && var u := s'.users[|s.users|];
         && u.name == reg.name
         && u.email == reg.email
         && u.password == Crypto.Hash(reg.password)
         && u.role == CoerceRole(reg.role)
         && (forall v :: v in s.users ==> v.id != u.id)
         && pub == PublicUser(u.id, reg.name, reg.email, u.role)
  {
    if UserByEmail(s, reg.email).Some? then Failure(EmailTaken)
    else
      var u := User(NextId(s.users, (v: User) => v.id), reg.name, reg.email,
                    Crypto.Hash(reg.password), CoerceRole(reg.role));
      var s' := s.(users := s.users + [u]);
      assert s'.users[..|s.users|] == s.users;
      Success((s', Public(u)))
  }

  /** Registration keeps every constraint of the store, unique emails included. */
  lemma RegisterPreservesValid(s: Store, reg: Registration)
    requires Valid(s)
    requires RegisterUser(s, reg).Success?
    ensures Valid(RegisterUser(s, reg).value.0)
  {
    var s' := RegisterUser(s, reg).value.0;
    var n := |s.users|;
    forall i, j | 0 <= i < j < |s'.users|
      ensures s'.users[i].id != s'.users[j].id && s'.users[i].email != s'.users[j].email
    {
      if j == n {
        assert s'.users[i] in s.users;
      }
    }
    forall u | u in s.users ensures u in s'.users {
      var k :| 0 <= k < n && s.users[k] == u;
      assert s'.users[k] == u;
    }
  }

  /** Registering the same email twice: the second attempt fails and adds no user. */
  lemma RegisterTwiceFails(s: Store, first: Registration, second: Registration)
    requires RegisterUser(s, first).Success?
    requires second.email == first.email
    ensures RegisterUser(RegisterUser(s, first).value.0, second) == Failure(EmailTaken)
  {
    var s' := RegisterUser(s, first).value.0;
    assert s'.users[|s.users|] in s'.users;
  }

  /** `loginUser(data)`: finds the user by email, checks the password against
      the stored digest, and signs `{userId, role}` for one hour. */
  function LoginUser(s: Store, cred: Credentials, secretEnv: Option<string>,
                     sign: Crypto.SignRequest -> string): (r: Result<Session, Error>)
    ensures r.Failure? ==> r.error == BadCredentials
    ensures !EmailRegistered(s, cred.email) ==> r.Failure?
    ensures r.Success? ==>
      exists u :: u in s.users && u.email == cred.email && Crypto.Compare(cred.password, u.password)
        && r.value.user == Public(u)
        && r.value.token == sign(Crypto.SignRequest(
             Crypto.Claims(u.id, RoleName(u.role)), Crypto.JwtSecret(secretEnv), Crypto.TokenLifetimeSeconds))
  {
    match UserByEmail(s, cred.email)
    case None => Failure(BadCredentials)
    case Some(u) =>
      if !Crypto.Compare(cred.password, u.password) then Failure(BadCredentials)
      else
        var token := sign(Crypto.SignRequest(
          Crypto.Claims(u.id, RoleName(u.role)), Crypto.JwtSecret(secretEnv), Crypto.TokenLifetimeSeconds));
        Success(Session(Public(u), token))
  }

  /** In a store with unique emails, login succeeds exactly for a registered
      email with its password, and an unknown email and a wrong password fail
      with the same error. */
  lemma LoginSucceedsIff(s: Store, cred: Credentials, secretEnv: Option<string>,
                         sign: Crypto.SignRequest -> string)
    requires UniqueEmails(s)
    ensures LoginUser(s, cred, secretEnv, sign).Success? <==>
      exists u :: u in s.users && u.email == cred.email && Crypto.Compare(cred.password, u.password)
    ensures LoginUser(s, cred, secretEnv, sign).Failure? ==>
      LoginUser(s, cred, secretEnv, sign) == Failure(BadCredentials)
  {
    if u :| u in s.users && u.email == cred.email && Crypto.Compare(cred.password, u.password) {
      UserByEmailFinds(s, u);
    }
  }

  /** Whether the email is unknown or the password wrong, the caller sees the
      same failure. */
  lemma LoginFailuresIndistinguishable(s: Store, unknown: Credentials, wrong: Credentials,
                                       secretEnv: Option<string>, sign: Crypto.SignRequest -> string)
    requires UniqueEmails(s)
    requires !EmailRegistered(s, unknown.email)
    requires exists u :: u in s.users && u.email == wrong.email && !Crypto.Compare(wrong.password, u.password)
    ensures LoginUser(s, unknown, secretEnv, sign) == LoginUser(s, wrong, secretEnv, sign)
  {
    var u :| u in s.users && u.email == wrong.email && !Crypto.Compare(wrong.password, u.password);
    UserByEmailFinds(s, u);
  }

  /** Register then login: the registered password opens a session for the
      registered user, signed for its id and role; any other password fails. */
  lemma RegisterThenLogin(s: Store, reg: Registration, other: string, secretEnv: Option<string>,
                          sign: Crypto.SignRequest -> string)
    requires RegisterUser(s, reg).Success?
    requires other != reg.password
    ensures var (s', pub) := RegisterUser(s, reg).value;
      && LoginUser(s', Credentials(reg.email, reg.password), secretEnv, sign)
         == Success(Session(pub, sign(Crypto.SignRequest(
              Crypto.Claims(pub.id, RoleName(pub.role)), Crypto.JwtSecret(secretEnv), Crypto.TokenLifetimeSeconds))))
      && LoginUser(s', Credentials(reg.email, other), secretEnv, sign) == Failure(BadCredentials)
  {
    var s' := RegisterUser(s, reg).value.0;
    var u := s'.users[|s.users|];
    assert s'.users == s.users + [u];
    FirstAfterMisses(s.users, u, (v: User) => v.email == reg.email);
  }
}

=== FILE: crypto.dfy ===
/** Password hashing (bcrypt) and token signing (jsonwebtoken) as abstract
    capabilities.  The hash is a symbolic term: it records the cost factor and
    the password it was computed from, and only `Compare` looks inside.  Signing
    and verification are parameters of the operations that use them. */
module Crypto {
  import opened Wrappers

  /** Cost factor passed to `bcrypt.hash`. */
  const BcryptCost: nat := 10

  /** A password digest as stored in place of the password. */
  datatype Digest = Bcrypt(cost: nat, preimage: string)

  /** `bcrypt.hash(password, 10)`. */
  function Hash(password: string): (h: Digest)
    ensures h.cost == BcryptCost
    ensures forall candidate :: Compare(candidate, h) <==> candidate == password
  {
    Bcrypt(BcryptCost, password)
  }

  /** `bcrypt.compare(candidate, h)`: whether `h` was computed from `candidate`. */
  predicate Compare(candidate: string, h: Digest) {
    h.preimage == candidate
  }

  /** Signing key used when `JWT_SECRET` is unset or empty. */
  const DefaultSecret := "secret"

  /** `process.env.JWT_SECRET || 'secret'`: an unset or empty variable falls back to the default. */
  function JwtSecret(env: Option<string>): (key: string)
    ensures key != ""
    ensures env.Some? && env.value != "" ==> key == env.value
    ensures env.None? || env.value == "" ==> key == DefaultSecret
  {
    if env.Some? && env.value != "" then env.value else DefaultSecret
  }

  /** `expiresIn: '1h'`, in seconds. */
  const TokenLifetimeSeconds: nat := 3600

  /** The payload a token carries, as the middleware decodes it. */
  datatype Claims = Claims(userId: int, role: string)

  /** Everything `jwt.sign` is given: payload, key and lifetime. */
  datatype SignRequest = SignRequest(payload: Claims, secret: string, expiresInSeconds: nat)

  /** What the model assumes of a sign/verify pair when it follows a token from
      login to a protected route: a token verified with the key it was signed
      with (within its lifetime, which `verify` accounts for) yields its payload,
      and a signed token is non-empty and contains no space. */
  ghost predicate SoundTokens(sign: SignRequest -> string, verify: (string, string) -> Option<Claims>) {
    forall req :: verify(sign(req), req.secret) == Some(req.payload) && sign(req) != "" && ' ' !in sign(req)
  }
}

=== FILE: domain.dfy ===
/** The entities of the job portal and the abstract store that holds them.
    The store is an immutable value: every service returns the store after its
    change, and a service that fails returns no store, so the caller keeps the
    one it had. */
module Domain {
  import opened Wrappers
  import opened Seqs
  import Text
  import Crypto

  datatype Role = APPLICANT | EMPLOYER

  /** The name a role has in a token payload and in JSON. */
  function RoleName(r: Role): string {
    match r
    case APPLICANT => "APPLICANT"
    case EMPLOYER => "EMPLOYER"
  }

  /** A stored user; `password` holds the digest, never the password itself. */
  datatype User = User(id: int, name: string, email: string, password: Crypto.Digest, role: Role)

  /** The fields of a user that register and login hand back. */
  datatype PublicUser = PublicUser(id: int, name: string, email: string, role: Role)

  datatype Job = Job(
    id: int,
    title: string,
    description: string,
    companyName: string,
    location: string,
    salary: int,
    employerId: int)

  datatype Application = Application(id: int, jobId: int, applicantId: int)

  datatype Store = Store(users: seq<User>, jobs: seq<Job>, applications: seq<Application>)

  /** Phrase that the job controller looks for to answer 403. */
  const AccessDeniedPhrase := "tidak memiliki akses"

  /** Placeholder texts for errors raised by the persistence layer itself. */
  const ForeignKeyFailure := "Foreign key constraint failed"
  const InconsistentResult := "Inconsistent query result"

  /** Every error a service can throw. */
  datatype Error =
    | EmailTaken
    | BadCredentials
    | JobNotFound
    | AlreadyApplied
    | NoAccess
    | Persistence(detail: string)

  const EmailTakenText := "Email sudah terdaftar!"
  const BadCredentialsText := "Email atau password salah!"
  const JobNotFoundText := "Pekerjaan tidak ditemukan!"
  const AlreadyAppliedText := "Anda sudah melamar pekerjaan ini sebelumnya."
  const NoAccessText := "Anda " + AccessDeniedPhrase + " untuk melihat pelamar pekerjaan ini!"

  /** `error.message` of each thrown error.  Only the access error carries the
      phrase the applicants listing turns into 403. */
  function Message(e: Error): (m: string)
    ensures e.NoAccess? ==> Text.Contains(m, AccessDeniedPhrase)
    ensures !e.NoAccess? && !e.Persistence? ==> !Text.Contains(m, AccessDeniedPhrase)
  {
    match e
    case EmailTaken => FixedTextsLackPhrase(); EmailTakenText
    case BadCredentials => FixedTextsLackPhrase(); BadCredentialsText
    case JobNotFound => FixedTextsLackPhrase(); JobNotFoundText
    case AlreadyApplied => FixedTextsLackPhrase(); AlreadyAppliedText
    case NoAccess =>
      Text.ContainsMiddle("Anda ", AccessDeniedPhrase, " untuk melihat pelamar pekerjaan ini!");
      NoAccessText
    case Persistence(detail) => detail
  }

  /** None of the four fixed error texts other than the access error carries
      the access phrase: each lacks one of its letters. */
  lemma FixedTextsLackPhrase()
    ensures !Text.Contains(EmailTakenText, AccessDeniedPhrase)
    ensures !Text.Contains(BadCredentialsText, AccessDeniedPhrase)
    ensures !Text.Contains(JobNotFoundText, AccessDeniedPhrase)
    ensures !Text.Contains(AlreadyAppliedText, AccessDeniedPhrase)
  {
    assert AccessDeniedPhrase[4] == 'k';
    assert 'k' !in EmailTakenText;
    LacksPhrase(EmailTakenText, 'k');
    assert 'k' !in BadCredentialsText;
    LacksPhrase(BadCredentialsText, 'k');
    assert AccessDeniedPhrase[10] == 'l';
    assert 'l' !in JobNotFoundText;
    LacksPhrase(JobNotFoundText, 'l');
    assert AccessDeniedPhrase[0] == 't';
    assert 't' !in AlreadyAppliedText;
    LacksPhrase(AlreadyAppliedText, 't');
  }

  /** A message lacking some character of the access phrase does not contain it. */
  lemma LacksPhrase(message: string, c: char)
    requires c in AccessDeniedPhrase && c !in message
    ensures !Text.Contains(message, AccessDeniedPhrase)
  {
    if Text.Contains(message, AccessDeniedPhrase) {
      Text.ContainedChars(message, AccessDeniedPhrase, c);
    }
  }

  function Public(u: User): PublicUser {
    PublicUser(u.id, u.name, u.email, u.role)
  }

  // Declarative facts about a store.

  predicate HasUser(s: Store, id: int) {
    exists u :: u in s.users && u.id == id
  }

  predicate EmailRegistered(s: Store, email: string) {
    exists u :: u in s.users && u.email == email
  }

  predicate HasJob(s: Store, id: int) {
    exists j :: j in s.jobs && j.id == id
  }

  predicate Applied(s: Store, jobId: int, applicantId: int) {
    exists a :: a in s.applications && a.jobId == jobId && a.applicantId == applicantId
  }

  // Lookups as the store answers them.

  function UserById(s: Store, id: int): Option<User> {
    First(s.users, (u: User) => u.id == id)
  }

  function UserByEmail(s: Store, email: string): Option<User> {
    First(s.users, (u: User) => u.email == email)
  }

  function JobById(s: Store, id: int): Option<Job> {
    First(s.jobs, (j: Job) => j.id == id)
  }

  function ApplicationFor(s: Store, jobId: int, applicantId: int): Option<Application> {
    First(s.applications, (a: Application) => a.jobId == jobId && a.applicantId == applicantId)
  }

  // The store invariant: unique lookup keys and references that resolve, as
  // the lookups and includes assume, plus the one-application-per-pair
  // condition that the duplicate check in `applyJob` maintains.

  predicate UniqueUserIds(s: Store) {
    forall i, j :: 0 <= i < j < |s.users| ==> s.users[i].id != s.users[j].id
  }

  predicate UniqueEmails(s: Store) {
    forall i, j :: 0 <= i < j < |s.users| ==> s.users[i].email != s.users[j].email
  }

  predicate UniqueJobIds(s: Store) {
    forall i, j :: 0 <= i < j < |s.jobs| ==> s.jobs[i].id != s.jobs[j].id
  }

  predicate UniqueApplicationIds(s: Store) {
    forall i, j :: 0 <= i < j < |s.applications| ==> s.applications[i].id != s.applications[j].id
  }

  /** At most one application per (jobId, applicantId) pair: kept by the
      duplicate check of `applyJob`, not by a database constraint. */
  predicate UniquePairs(s: Store) {
    forall i, j :: 0 <= i < j < |s.applications| ==>
      s.applications[i].jobId != s.applications[j].jobId
      || s.applications[i].applicantId != s.applications[j].applicantId
  }

  predicate EmployersExist(s: Store) {
    forall j :: j in s.jobs ==> HasUser(s, j.employerId)
  }

  predicate ApplicationsResolve(s: Store) {
    forall a :: a in s.applications ==> HasJob(s, a.jobId) && HasUser(s, a.applicantId)
  }

  predicate Valid(s: Store) {
    && UniqueUserIds(s)
    && UniqueEmails(s)
    && UniqueJobIds(s)
    && UniqueApplicationIds(s)
    && UniquePairs(s)
    && EmployersExist(s)
    && ApplicationsResolve(s)
  }

  /** Under unique emails, the lookup by email finds exactly the user holding it. */
  lemma UserByEmailFinds(s: Store, u: User)
    requires UniqueEmails(s)
    requires u in s.users
    ensures UserByEmail(s, u.email) == Some(u)
  {
    var v := UserByEmail(s, u.email).value;
    var i :| 0 <= i < |s.users| && s.users[i] == u;
    var k :| 0 <= k < |s.users| && s.users[k] == v;
  }

  /** Under unique ids, the lookup by id finds exactly the job holding it. */
  lemma JobByIdFinds(s: Store, j: Job)
    requires UniqueJobIds(s)
    requires j in s.jobs
    ensures JobById(s, j.id) == Some(j)
  {
    var v := JobById(s, j.id).value;
    var i :| 0 <= i < |s.jobs| && s.jobs[i] == j;
    var k :| 0 <= k < |s.jobs| && s.jobs[k] == v;
  }

  /** A query that includes a required user relation: each row is joined with
      the user its reference names; a reference that names no user makes the
      query fail (`IncludeUserJoins` states what it computes). */
  function IncludeUser<T, R>(s: Store, rows: seq<T>, ref: T -> int, attach: (T, User) -> R): (r: Result<seq<R>, Error>)
    ensures r.Failure? ==> r.error == Persistence(InconsistentResult)
    ensures r.Success? ==> |r.value| == |rows|
  {
    if |rows| == 0 then Success([])
    else match UserById(s, ref(rows[0]))
      case None => Failure(Persistence(InconsistentResult))
      case Some(u) =>
        match IncludeUser(s, rows[1..], ref, attach)
        case Failure(e) => Failure(e)
        case Success(rest) => Success([attach(rows[0], u)] + rest)
  }

  /** The include succeeds iff every reference names a stored user, keeps the
      rows in order, and joins each row with a user holding its reference. */
  lemma {:induction false} IncludeUserJoins<T, R>(s: Store, rows: seq<T>, ref: T -> int, attach: (T, User) -> R)
    ensures IncludeUser(s, rows, ref, attach).Success? <==> forall i :: 0 <= i < |rows| ==> HasUser(s, ref(rows[i]))
    ensures IncludeUser(s, rows, ref, attach).Success? ==>
      forall i :: 0 <= i < |rows| ==>
        exists u :: u in s.users && u.id == ref(rows[i]) && IncludeUser(s, rows, ref, attach).value[i] == attach(rows[i], u)
    decreases |rows|
  {
    if |rows| > 0 {
      IncludeUserJoins(s, rows[1..], ref, attach);
      var r := IncludeUser(s, rows, ref, attach);
      var tail := IncludeUser(s, rows[1..], ref, attach);
      forall i | 1 <= i < |rows| ensures rows[1..][i - 1] == rows[i] { }
      match UserById(s, ref(rows[0]))
      case None =>
        assert !HasUser(s, ref(rows[0]));
      case Some(u) =>
        if tail.Success? {
          forall i | 0 <= i < |rows|
            ensures exists v :: v in s.users && v.id == ref(rows[i]) && r.value[i] == attach(rows[i], v)
          {
            if i > 0 {
              assert r.value[i] == tail.value[i - 1];
            }
          }
        }
    }
  }

  /** Inserting an application row; the applicant and the job must exist
      (foreign keys), otherwise the persistence layer refuses the row. */
  function InsertApplication(s: Store, jobId: int, applicantId: int): (r: Result<(Store, Application), Error>)
    ensures r.Success? <==> HasJob(s, jobId) && HasUser(s, applicantId)
    ensures r.Failure? ==> r.error == Persistence(ForeignKeyFailure)
    ensures r.Success? ==>
      && r.value.1.jobId == jobId
      && r.value.1.applicantId == applicantId
      && (forall a :: a in s.applications ==> a.id != r.value.1.id)
      && r.value.0 == s.(applications := s.applications + [r.value.1])
  {
    if JobById(s, jobId).None? || UserById(s, applicantId).None? then
      Failure(Persistence(ForeignKeyFailure))
    else
      var a := Application(NextId(s.applications, (a: Application) => a.id), jobId, applicantId);
      Success((s.(applications := s.applications + [a]), a))
  }
}

=== FILE: http.dfy ===
/** The responses the controllers send: a status code and a JSON body. */
module Http {
  import opened Wrappers
  import opened Domain
  import JobService
  import ApplicationService

  datatype Body =
    | ErrorBody(error: string)
    | Registered(message: string, user: PublicUser)
    | LoggedIn(message: string, user: PublicUser, token: string)
    | Profile(message: string, userIdFromToken: Option<int>, roleFromToken: Option<string>)
    | JobCreated(message: string, job: Job)
    | JobList(jobs: seq<JobService.JobListing>)
    | ApplicationSent(message: string, application: Application)
    | ApplicantList(message: string, totalApplicants: int, data: seq<ApplicationService.ApplicantEntry>)

  /** `res.json(...)` without `res.status(...)` answers 200. */
  const DefaultStatus := 200

  datatype Response = Response(status: int, body: Body)
}

=== FILE: job_controller.dfy ===
/** `createJob`, `getAllJobs`, `applyJob` and `getJobApplicants`
    (jobController): the caller check, the service call, the notification after
    a successful application, and the mapping of errors to status codes. */
module JobController {
  import opened Wrappers
  import opened Text
  import opened Domain
  import opened Http
  import Crypto
  import JobService
  import ApplicationService
  import Notification

  const UnknownUserMessage := "User tidak dikenali"
  const UnauthorizedMessage := "Unauthorized"
  const JobCreatedMessage := "Lowongan kerja berhasil dibuat!"
  const ApplicationSentMessage := "Lamaran berhasil dikirim!"
  const ApplicantsMessage := "Data pelamar berhasil diambil"

  /** `req.user?.userId` when truthy: no payload and a zero id both count as
      no caller. */
  function CallerId(user: Option<Crypto.Claims>): (id: Option<int>)
    ensures id.Some? <==> user.Some? && user.value.userId != 0
    ensures id.Some? ==> id.value == user.value.userId
  {
    if user.Some? && user.value.userId != 0 then Some(user.value.userId) else None
  }

  /** The store after a request, the response, and the notifications published. */
  datatype Exchange = Exchange(store: Store, response: Response, published: seq<string>)

  /** `POST /jobs`. */
  function CreateJob(s: Store, user: Option<Crypto.Claims>, input: JobService.JobInput): (x: Exchange)
    ensures x.published == []
    ensures CallerId(user).None? ==> x == Exchange(s, Response(401, ErrorBody(UnknownUserMessage)), [])
    ensures x.response.status == 201 <==> CallerId(user).Some? && HasUser(s, CallerId(user).value)
    ensures x.response.status == 201 ==>
      && x.response.body.JobCreated?
      && x.response.body.job.employerId == CallerId(user).value
      && x.store == s.(jobs := s.jobs + [x.response.body.job])
    ensures x.response.status == 500 ==>
      CallerId(user).Some? && x == Exchange(s, Response(500, ErrorBody(ForeignKeyFailure)), [])
    ensures x.response.status in {201, 401, 500}
    ensures CallerId(user).Some? ==>
      var r := JobService.CreateJob(s, input, CallerId(user).value);
      r.Success? ==> x == Exchange(r.value.0, Response(201, JobCreated(JobCreatedMessage, r.value.1)), [])
  {
    match CallerId(user)
    case None => Exchange(s, Response(401, ErrorBody(UnknownUserMessage)), [])
    case Some(uid) =>
      match JobService.CreateJob(s, input, uid)
      case Success((s', job)) => Exchange(s', Response(201, JobCreated(JobCreatedMessage, job)), [])
      case Failure(e) => Exchange(s, Response(500, ErrorBody(Message(e))), [])
  }

  /** `GET /jobs`: reads the store and changes nothing. */
  function GetAllJobs(s: Store): (resp: Response)
    ensures resp.status == DefaultStatus <==> EmployersExist(s)
    ensures resp.status == DefaultStatus ==>
      resp.body.JobList? && JobService.ListedJobs(resp.body.jobs) == s.jobs
    ensures resp.status != DefaultStatus ==> resp == Response(500, ErrorBody(InconsistentResult))
    ensures JobService.GetAllJobs(s).Success? ==>
      resp == Response(DefaultStatus, JobList(JobService.GetAllJobs(s).value))
  {
    match JobService.GetAllJobs(s)
    case Success(listings) => Response(DefaultStatus, JobList(listings))
    case Failure(e) => Response(500, ErrorBody(Message(e)))
  }

  /** `POST /jobs/:id/apply`: on success the notification naming both ids is
      published and cannot affect the response; on any error the answer is 400
      and nothing is published. */
  function ApplyJob(s: Store, user: Option<Crypto.Claims>, jobId: int): (x: Exchange)
    ensures CallerId(user).None? ==> x == Exchange(s, Response(401, ErrorBody(UnauthorizedMessage)), [])
    ensures x.published != [] <==> x.response.status == 201
    ensures x.response.status == 201 ==>
      && x.response.body.ApplicationSent?
      && x.published == [Notification.ApplicationMessage(CallerId(user).value, jobId)]
      && x.store == s.(applications := s.applications + [x.response.body.application])
      && x.response.body.application.jobId == jobId
      && x.response.body.application.applicantId == CallerId(user).value
    ensures x.response.status != 201 ==> x.store == s && x.published == []
    ensures CallerId(user).Some? ==>
      var r := ApplicationService.ApplyJob(s, jobId, CallerId(user).value);
      r.Failure? ==> x.response == Response(400, ErrorBody(Message(r.error)))
    ensures CallerId(user).Some? ==>
      var r := ApplicationService.ApplyJob(s, jobId, CallerId(user).value);
      r.Success? ==> x == Exchange(r.value.0, Response(201, ApplicationSent(ApplicationSentMessage, r.value.1)),
                                   [Notification.ApplicationMessage(CallerId(user).value, jobId)])
  {
    match CallerId(user)
    case None => Exchange(s, Response(401, ErrorBody(UnauthorizedMessage)), [])
    case Some(uid) =>
      match ApplicationService.ApplyJob(s, jobId, uid)
      case Success((s', application)) =>
        Exchange(s', Response(201, ApplicationSent(ApplicationSentMessage, application)),
                 [Notification.ApplicationMessage(uid, jobId)])
      case Failure(e) => Exchange(s, Response(400, ErrorBody(Message(e))), [])
  }

  /** The status `getJobApplicants` gives an error: 403 when its message
      mentions missing access, 400 otherwise. */
  function ApplicantsErrorStatus(message: string): (status: int)
    ensures status == 403 <==> Contains(message, AccessDeniedPhrase)
    ensures status == 400 <==> !Contains(message, AccessDeniedPhrase)
  {
    if Contains(message, AccessDeniedPhrase) then 403 else 400
  }

  /** `GET /jobs/:id/applicants`: reads the store and changes nothing. */
  function GetJobApplicants(s: Store, user: Option<Crypto.Claims>, jobId: int): (resp: Response)
    ensures CallerId(user).None? ==> resp == Response(401, ErrorBody(UnauthorizedMessage))
    ensures resp.status == DefaultStatus ==>
      && resp.body.ApplicantList?
      && resp.body.totalApplicants == |resp.body.data|
      && ApplicationService.EntryApplications(resp.body.data) == ApplicationService.ApplicationsOf(s, jobId)
    ensures CallerId(user).Some? ==>
      var r := ApplicationService.GetApplicantsByJobId(s, jobId, CallerId(user).value);
      && (r.Success? <==> resp.status == DefaultStatus)
      && (r.Failure? ==> resp == Response(ApplicantsErrorStatus(Message(r.error)), ErrorBody(Message(r.error))))
      && (r.Success? ==> resp == Response(DefaultStatus, ApplicantList(ApplicantsMessage, |r.value|, r.value)))
  {
    match CallerId(user)
    case None => Response(401, ErrorBody(UnauthorizedMessage))
    case Some(uid) =>
      match ApplicationService.GetApplicantsByJobId(s, jobId, uid)
      case Success(entries) => Response(DefaultStatus, ApplicantList(ApplicantsMessage, |entries|, entries))
      case Failure(e) =>
        var m := Message(e);
        Response(ApplicantsErrorStatus(m), ErrorBody(m))
  }

  /** The access error selects 403. */
  lemma NoAccessIs403()
    ensures ApplicantsErrorStatus(Message(NoAccess)) == 403
  {
  }

  /** The not-found error and the persistence errors of the listing answer 400. */
  lemma OtherListingErrorsAre400()
    ensures ApplicantsErrorStatus(Message(JobNotFound)) == 400
    ensures ApplicantsErrorStatus(Message(Persistence(InconsistentResult))) == 400
  {
    assert AccessDeniedPhrase[4] == 'k';
    assert 'k' !in InconsistentResult;
    LacksPhrase(InconsistentResult, 'k');
  }

  /** Composed with the service: a caller who does not own an existing job gets
      403, and a job that does not exist gets 400. */
  lemma ApplicantsStatusByCase(s: Store, user: Option<Crypto.Claims>, jobId: int)
    requires CallerId(user).Some?
    ensures !HasJob(s, jobId) ==> GetJobApplicants(s, user, jobId) == Response(400, ErrorBody(Message(JobNotFound)))
    ensures HasJob(s, jobId) && JobById(s, jobId).value.employerId != CallerId(user).value ==>
      GetJobApplicants(s, user, jobId) == Response(403, ErrorBody(Message(NoAccess)))
  {
    NoAccessIs403();
    OtherListingErrorsAre400();
  }
}

=== FILE: job_service.dfy ===
/** Posting a job and listing all jobs (jobService). */
module JobService {
  import opened Wrappers
  import opened Seqs
  import opened Domain

  /** The request body of a job posting.  A body may carry its own
      `employerId`; the service overrides it. */
  datatype JobInput = JobInput(
    title: string,
    description: string,
    companyName: string,
    location: string,
    salary: int,
    employerId: Option<int>)

  /** `createJob(data, userId)`: the input spread into a new row, then
      `employerId: userId` written over it.  The employer must exist (foreign key). */
  function CreateJob(s: Store, input: JobInput, userId: int): (r: Result<(Store, Job), Error>)
    ensures r.Success? <==> HasUser(s, userId)
    ensures r.Failure? ==> r.error == Persistence(ForeignKeyFailure)
    ensures r.Success? ==>
      var (s', job) := r.value;
      && job.employerId == userId
      && job.title == input.title
      && job.description == input.description
      && job.companyName == input.companyName
      && job.location == input.location
      && job.salary == input.salary
      && (forall j :: j in s.jobs ==> j.id != job.id)
      && s' == s.(jobs := s.jobs + [job])
  {
    if UserById(s, userId).None? then Failure(Persistence(ForeignKeyFailure))
    else
      var job := Job(NextId(s.jobs, (j: Job) => j.id), input.title, input.description,
                     input.companyName, input.location, input.salary, userId);
      Success((s.(jobs := s.jobs + [job]), job))
  }

  /** Whatever employer a body names, the job is the caller's. */
  lemma CreateJobIgnoresClaimedEmployer(s: Store, input: JobInput, claimed: Option<int>, userId: int)
    ensures CreateJob(s, input.(employerId := claimed), userId) == CreateJob(s, input, userId)
  {
  }

  /** Posting a job keeps every constraint of the store. */
  lemma CreateJobPreservesValid(s: Store, input: JobInput, userId: int)
    requires Valid(s)
    requires CreateJob(s, input, userId).Success?
    ensures Valid(CreateJob(s, input, userId).value.0)
  {
    var (s', job) := CreateJob(s, input, userId).value;
    forall i, j | 0 <= i < j < |s'.jobs| ensures s'.jobs[i].id != s'.jobs[j].id {
      if j == |s.jobs| {
        assert s'.jobs[i] in s.jobs;
      }
    }
    forall a | a in s'.applications ensures HasJob(s', a.jobId) {
      var j :| j in s.jobs && j.id == a.jobId;
      assert j in s'.jobs;
    }
  }

  /** An employer as a job listing shows them. */
  datatype EmployerSummary = EmployerSummary(name: string, email: string)

  /** One row of `getAllJobs`: the job with its employer's name and email. */
  datatype JobListing = JobListing(job: Job, employer: EmployerSummary)

  /** The listing shows the name and email of the user who owns its job. */
  predicate EmployerShown(s: Store, l: JobListing) {
    exists u :: u in s.users && u.id == l.job.employerId && l.employer == EmployerSummary(u.name, u.email)
  }

  function ListedJobs(listings: seq<JobListing>): (r: seq<Job>)
    ensures |r| == |listings|
    ensures forall i :: 0 <= i < |listings| ==> r[i] == listings[i].job
  {
    if |listings| == 0 then [] else [listings[0].job] + ListedJobs(listings[1..])
  }

  /** `getAllJobs()`: every job of the store, in store order, each with its
      employer's name and email.  It reads and returns no store. */
  function GetAllJobs(s: Store): (r: Result<seq<JobListing>, Error>)
    ensures EmployersExist(s) <==> r.Success?
    ensures r.Success? ==>
      && ListedJobs(r.value) == s.jobs
      && forall i :: 0 <= i < |s.jobs| ==> EmployerShown(s, r.value[i])
  {
    var ref := (j: Job) => j.employerId;
    var attach := (j: Job, u: User) => JobListing(j, EmployerSummary(u.name, u.email));
    var r := IncludeUser(s, s.jobs, ref, attach);
    IncludeUserJoins(s, s.jobs, ref, attach);
    assert r.Success? ==> forall i :: 0 <= i < |s.jobs| ==> r.value[i].job == s.jobs[i] && EmployerShown(s, r.value[i]);
    assert r.Success? ==> ListedJobs(r.value) == s.jobs;
    r
  }

  /** A posted job is listed last, owned by the caller's name and email. */
  lemma PostedJobIsListed(s: Store, input: JobInput, userId: int)
    requires Valid(s)
    requires CreateJob(s, input, userId).Success?
    ensures GetAllJobs(CreateJob(s, input, userId).value.0).Success?
    ensures var (s', job) := CreateJob(s, input, userId).value;
            var listings := GetAllJobs(s').value;
            && |listings| == |s.jobs| + 1
            && listings[|s.jobs|].job == job
            && EmployerShown(s', listings[|s.jobs|])
  {
    CreateJobPreservesValid(s, input, userId);
    var (s', job) := CreateJob(s, input, userId).value;
    var listings := GetAllJobs(s').value;
    assert ListedJobs(listings)[|s.jobs|] == job;
  }
}

=== FILE: notification.dfy ===
/** The notification an application triggers.  Publishing it is
    fire-and-forget: it is not awaited and swallows its own errors, so the
    model records it as an event that cannot fail the request.  What is
    modelled is the text, and that both ids can be read back out of it. */
module Notification {
  import opened Wrappers
  import opened Text

  const Lead := "User ID "
  const Link := " baru saja melamar ke Job ID "
  const Tail := ". Segera proses!"

  /** `User ID ${userId} baru saja melamar ke Job ID ${jobId}. Segera proses!`
      The text identifies the application unambiguously: a reader of the queue
      recovers both ids from it. */
  function ApplicationMessage(userId: int, jobId: int): (m: string)
    ensures ParseApplicationMessage(m) == Some((userId, jobId))
  {
    var u := IntToDecimal(userId);
    var j := IntToDecimal(jobId);
    assert ' ' !in u;
    assert Link[0] == ' ';
    ParseFramedRoundTrip(Lead, u, Link, j, Tail);
    IntDecimalRoundTrip(userId);
    IntDecimalRoundTrip(jobId);
    Lead + u + Link + j + Tail
  }

  /** Reads the two fields back out of `lead + first + link + second + tail`,
      where `first` is the run up to the first space and `link` starts with it. */
  function ParseFramed(m: string, lead: string, link: string, tail: string): Option<(string, string)> {
    if |m| < |lead| + |tail| || m[..|lead|] != lead || m[|m| - |tail|..] != tail then None
    else
      var body := m[|lead|..|m| - |tail|];
      match IndexOf(body, ' ')
      case None => None
      case Some(k) =>
        var rest := body[k..];
        if |rest| < |link| || rest[..|link|] != link then None
        else Some((body[..k], rest[|link|..]))
  }

  /** Framing and reading back agree whenever the first field has no space
      and the link starts with one. */
  lemma ParseFramedRoundTrip(lead: string, first: string, link: string, second: string, tail: string)
    requires ' ' !in first
    requires |link| >= 1 && link[0] == ' '
    ensures ParseFramed(lead + first + link + second + tail, lead, link, tail) == Some((first, second))
  {
    var m := lead + first + link + second + tail;
    assert m == lead + (first + link + second) + tail;
    assert m[..|lead|] == lead;
    assert m[|m| - |tail|..] == tail;
    var body := m[|lead|..|m| - |tail|];
    assert body == first + link + second;
    assert body == first + [' '] + (link[1..] + second);
    IndexOfAfterWord(first, ' ', link[1..] + second);
    assert body[..|first|] == first;
    assert body[|first|..] == link + second;
    assert (link + second)[..|link|] == link;
    assert (link + second)[|link|..] == second;
  }

  /** Reads (userId, jobId) back out of a notification text, as a consumer of
      the queue would. */
  function ParseApplicationMessage(m: string): Option<(int, int)> {
    match ParseFramed(m, Lead, Link, Tail)
    case None => None
    case Some((first, second)) =>
      match (ParseDecimal(first), ParseDecimal(second))
      case (Some(u), Some(j)) => Some((u, j))
      case _ => None
  }

  lemma FramedContainsFields(lead: string, first: string, link: string, second: string, tail: string)
    ensures Contains(lead + first + link + second + tail, first)
    ensures Contains(lead + first + link + second + tail, second)
  {
    assert lead + first + link + second + tail == lead + first + (link + second + tail);
    ContainsMiddle(lead, first, link + second + tail);
    ContainsMiddle(lead + first + link, second, tail);
  }

  /** The message mentions both ids in decimal. */
  lemma ApplicationMessageMentionsIds(userId: int, jobId: int)
    ensures Contains(ApplicationMessage(userId, jobId), IntToDecimal(userId))
    ensures Contains(ApplicationMessage(userId, jobId), IntToDecimal(jobId))
  {
    var u := IntToDecimal(userId);
    var j := IntToDecimal(jobId);
    FramedContainsFields(Lead, u, Link, j, Tail);
  }
}

=== FILE: scenario.dfy ===
/** End-to-end walks through the request handlers. */
module Scenario {
  import opened Wrappers
  import opened Text
  import opened Domain
  import opened Http
  import Crypto
  import AuthService
  import ApplicationService
  import AuthController
  import AuthMiddleware
  import JobController
  import Notification

  function TokenOf(u: User): Crypto.Claims {
    Crypto.Claims(u.id, RoleName(u.role))
  }

  /** Preconditions of the walk: an employer owns a job in a valid store and
      a different user has not applied to it yet. */
  predicate Setting(s: Store, employer: User, applicant: User, job: Job) {
    && Valid(s)
    && employer in s.users && applicant in s.users && job in s.jobs
    && job.employerId == employer.id && employer.id != applicant.id
    && employer.id != 0 && applicant.id != 0
    && !Applied(s, job.id, applicant.id)
  }

  /** The first application is accepted: 201, one notification naming both
      ids, and the store gains the application and stays valid. */
  lemma FirstApplicationAccepted(s: Store, employer: User, applicant: User, job: Job)
    requires Setting(s, employer, applicant, job)
    ensures var first := JobController.ApplyJob(s, Some(TokenOf(applicant)), job.id);
      && first.response.status == 201
      && first.published == [Notification.ApplicationMessage(applicant.id, job.id)]
      && first.store == ApplicationService.ApplyJob(s, job.id, applicant.id).value.0
      && first.response.body.application == ApplicationService.ApplyJob(s, job.id, applicant.id).value.1
      && Valid(first.store)
  {
    assert HasJob(s, job.id) && HasUser(s, applicant.id);
    ApplicationService.ApplyJobPreservesValid(s, job.id, applicant.id);
  }

  /** Applying again is refused with 400, publishes nothing, and the store
      holds the pair exactly once. */
  lemma SecondApplicationRefused(s: Store, employer: User, applicant: User, job: Job)
    requires Setting(s, employer, applicant, job)
    ensures var s' := ApplicationService.ApplyJob(s, job.id, applicant.id).value.0;
      && JobController.ApplyJob(s', Some(TokenOf(applicant)), job.id)
         == JobController.Exchange(s', Response(400, ErrorBody(Message(AlreadyApplied))), [])
      && ApplicationService.PairCount(s', job.id, applicant.id) == 1
  {
    assert HasJob(s, job.id) && HasUser(s, applicant.id);
    ApplicationService.ApplyTwice(s, job.id, applicant.id);
  }

  /** After the application the owner's listing contains it. */
  lemma OwnerListsApplication(s: Store, employer: User, applicant: User, job: Job)
    requires Setting(s, employer, applicant, job)
    ensures var (s', a) := ApplicationService.ApplyJob(s, job.id, applicant.id).value;
      var owner := JobController.GetJobApplicants(s', Some(TokenOf(employer)), job.id);
      && owner.status == DefaultStatus
      && owner.body.ApplicantList?
      && (exists i :: 0 <= i < |owner.body.data| && owner.body.data[i].application == a)
  {
    assert HasJob(s, job.id) && HasUser(s, applicant.id);
    ApplicationService.ApplyJobPreservesValid(s, job.id, applicant.id);
    var (s', a) := ApplicationService.ApplyJob(s, job.id, applicant.id).value;
    assert a in s'.applications;
    assert job in s'.jobs;
    ApplicationService.OwnerSeesApplication(s', job, a);
  }

  /** After the application the applicant asking for the listing is refused with 403. */
  lemma ApplicantRefusedListing(s: Store, employer: User, applicant: User, job: Job)
    requires Setting(s, employer, applicant, job)
    ensures var s' := ApplicationService.ApplyJob(s, job.id, applicant.id).value.0;
      JobController.GetJobApplicants(s', Some(TokenOf(applicant)), job.id)
      == Response(403, ErrorBody(Message(NoAccess)))
  {
    assert HasJob(s, job.id) && HasUser(s, applicant.id);
    var s' := ApplicationService.ApplyJob(s, job.id, applicant.id).value.0;
    assert job in s'.jobs;
    ApplicationService.NonOwnerRefused(s', job.id, applicant.id);
    JobController.NoAccessIs403();
  }

  /** The whole walk: the applicant applies (201, one notification naming both
      ids), applies again (400 with the already-applied error, nothing
      published, the pair held once); the employer's listing shows the
      application and the applicant's request for it gets 403. */
  lemma ApplicationWorkflow(s: Store, employer: User, applicant: User, job: Job)
    requires Setting(s, employer, applicant, job)
    ensures var first := JobController.ApplyJob(s, Some(TokenOf(applicant)), job.id);
      && first.response.status == 201
      && first.published == [Notification.ApplicationMessage(applicant.id, job.id)]
      && Contains(first.published[0], IntToDecimal(applicant.id))
      && Contains(first.published[0], IntToDecimal(job.id))
      && var second := JobController.ApplyJob(first.store, Some(TokenOf(applicant)), job.id);
         && second == JobController.Exchange(first.store, Response(400, ErrorBody(Message(AlreadyApplied))), [])
         && ApplicationService.PairCount(second.store, job.id, applicant.id) == 1
         && var owner := JobController.GetJobApplicants(second.store, Some(TokenOf(employer)), job.id);
            && owner.status == DefaultStatus
            && owner.body.ApplicantList?
            && (exists i :: 0 <= i < |owner.body.data|
                  && owner.body.data[i].application == first.response.body.application)
            && JobController.GetJobApplicants(second.store, Some(TokenOf(applicant)), job.id)
               == Response(403, ErrorBody(Message(NoAccess)))
  {
    FirstApplicationAccepted(s, employer, applicant, job);
    SecondApplicationRefused(s, employer, applicant, job);
    OwnerListsApplication(s, employer, applicant, job);
    ApplicantRefusedListing(s, employer, applicant, job);
    Notification.ApplicationMessageMentionsIds(applicant.id, job.id);
  }

  /** Register, log in, present the token as `Bearer <token>`, read the
      profile: the profile echoes the registered user's id and role, provided
      the sign/verify pair is sound. */
  lemma RegisterLoginProfile(s: Store, reg: AuthService.Registration, secretEnv: Option<string>,
                             sign: Crypto.SignRequest -> string,
                             verify: (string, string) -> Option<Crypto.Claims>)
    requires Crypto.SoundTokens(sign, verify)
    requires AuthService.RegisterUser(s, reg).Success?
    ensures var (s', pub) := AuthService.RegisterUser(s, reg).value;
      var login := AuthController.Login(s', AuthService.Credentials(reg.email, reg.password), secretEnv, sign);
      && login.status == 200
      && login.body.LoggedIn?
      && login.body.user == pub
      && var gate := AuthMiddleware.Authenticate(Some("Bearer " + login.body.token), secretEnv, verify);
         && gate == AuthMiddleware.Next(Crypto.Claims(pub.id, RoleName(pub.role)))
         && AuthController.GetProfile(Some(gate.user)).body
            == Profile(AuthController.ProfileMessage, Some(pub.id), Some(RoleName(pub.role)))
  {
    var (s', pub) := AuthService.RegisterUser(s, reg).value;
    AuthService.RegisterThenLogin(s, reg, reg.password + "x", secretEnv, sign);
    var req := Crypto.SignRequest(Crypto.Claims(pub.id, RoleName(pub.role)), Crypto.JwtSecret(secretEnv),
                                  Crypto.TokenLifetimeSeconds);
    AuthMiddleware.SignedTokenPasses(req, secretEnv, sign, verify);
  }
}

=== FILE: seqs.dfy ===
/** Generic sequence queries that the abstract store answers: first match and
    order-preserving filter. */
module Seqs {
  import opened Wrappers

  /** The first element of `xs` that satisfies `p` (what a lookup returns). */
  function First<T>(xs: seq<T>, p: T -> bool): (r: Option<T>)
    ensures r.Some? ==> r.value in xs && p(r.value)
    ensures r.None? ==> forall x :: x in xs ==> !p(x)
  {
    if |xs| == 0 then None
    else if p(xs[0]) then Some(xs[0])
    else First(xs[1..], p)
  }

  /** When no element of `xs` matches, a match appended at the end is the first one. */
  lemma {:induction false} FirstAfterMisses<T>(xs: seq<T>, y: T, p: T -> bool)
    requires forall x :: x in xs ==> !p(x)
    requires p(y)
    ensures First(xs + [y], p) == Some(y)
    decreases |xs|
  {
    if |xs| == 0 {
      assert xs + [y] == [y];
    } else {
      assert (xs + [y])[1..] == xs[1..] + [y];
      FirstAfterMisses(xs[1..], y, p);
    }
  }

  /** The elements of `xs` that satisfy `p`, in their original order. */
  function Filter<T(!new)>(xs: seq<T>, p: T -> bool): (r: seq<T>)
    ensures |r| <= |xs|
    ensures forall x :: x in r <==> x in xs && p(x)
  {
    if |xs| == 0 then []
    else (if p(xs[0]) then [xs[0]] else []) + Filter(xs[1..], p)
  }

  /** Nothing survives a filter that rejects every element. */
  lemma {:induction false} FilterNone<T(!new)>(xs: seq<T>, p: T -> bool)
    requires forall x :: x in xs ==> !p(x)
    ensures Filter(xs, p) == []
    decreases |xs|
  {
    if |xs| > 0 {
      FilterNone(xs[1..], p);
    }
  }

  /** When at most one position of `xs` satisfies `p`, the filter keeps at most one element. */
  lemma {:induction false} FilterAtMostOne<T(!new)>(xs: seq<T>, p: T -> bool)
    requires forall i, j :: 0 <= i < j < |xs| && p(xs[i]) ==> !p(xs[j])
    ensures |Filter(xs, p)| <= 1
    ensures (exists x :: x in xs && p(x)) ==> |Filter(xs, p)| == 1
    decreases |xs|
  {
    if |xs| > 0 {
      FilterAtMostOne(xs[1..], p);
      if p(xs[0]) {
        forall x | x in xs[1..] ensures !p(x) {
          var k :| 0 <= k < |xs[1..]| && xs[1..][k] == x;
          assert xs[k + 1] == x;
        }
        FilterNone(xs[1..], p);
      }
    }
  }

  /** Largest id in `xs` plus one, and at least 1: a key no element uses yet. */
  function NextId<T>(xs: seq<T>, id: T -> int): (r: int)
    ensures r >= 1
    ensures forall x :: x in xs ==> id(x) < r
  {
    if |xs| == 0 then 1
    else
      var rest := NextId(xs[1..], id);
      if id(xs[0]) + 1 > rest then id(xs[0]) + 1 else rest
  }
}

=== FILE: text.dfy ===
/** The string operations the source relies on, with JavaScript's semantics:
    `String.prototype.includes`, `String.prototype.split` on one character,
    `Array.prototype.join`, and the decimal rendering of an integer inside a
    template literal. */
module Text {
  import opened Wrappers

  /** `t` occurs in `s` starting at position `i`. */
  predicate OccursAt(s: string, t: string, i: int) {
    0 <= i && i + |t| <= |s| && s[i..i + |t|] == t
  }

  /** `s.includes(t)`: `t` is a contiguous block of `s`. */
  predicate Contains(s: string, t: string) {
    exists i | 0 <= i <= |s| :: OccursAt(s, t, i)
  }

  /** A string contains each of its parts: whatever surrounds `t` in `a + t + b`. */
  lemma ContainsMiddle(a: string, t: string, b: string)
    ensures Contains(a + t + b, t)
  {
    var s := a + t + b;
    assert s[|a|..|a| + |t|] == t;
    assert OccursAt(s, t, |a|);
  }

  /** Every character of a contained block is a character of the container. */
  lemma ContainedChars(s: string, t: string, c: char)
    requires Contains(s, t)
    requires c in t
    ensures c in s
  {
    var i :| 0 <= i <= |s| && OccursAt(s, t, i);
    var k :| 0 <= k < |t| && t[k] == c;
    assert s[i..i + |t|][k] == c;
  }

  /** `s.split(sep)`: the maximal runs between occurrences of `sep`; never empty,
      an empty string gives `[""]`, and adjacent separators give empty parts. */
  function Split(s: string, sep: char): (parts: seq<string>)
    ensures |parts| >= 1
    ensures forall i :: 0 <= i < |parts| ==> sep !in parts[i]
    decreases |s|
  {
    if |s| == 0 then [""]
    else
      var rest := Split(s[1..], sep);
      if s[0] == sep then [""] + rest
      else [[s[0]] + rest[0]] + rest[1..]
  }

  /** `parts.join(sep)`. */
  function Join(parts: seq<string>, sep: char): string
    decreases |parts|
  {
    if |parts| == 0 then ""
    else if |parts| == 1 then parts[0]
    else parts[0] + [sep] + Join(parts[1..], sep)
  }

  /** Splitting loses nothing: joining the parts back gives the original string. */
  lemma {:induction false} JoinSplit(s: string, sep: char)
    ensures Join(Split(s, sep), sep) == s
    decreases |s|
  {
    if |s| > 0 {
      var rest := Split(s[1..], sep);
      JoinSplit(s[1..], sep);
      if s[0] == sep {
        assert ([""] + rest)[1..] == rest;
      } else {
        var parts := [[s[0]] + rest[0]] + rest[1..];
        if |rest| == 1 {
          assert parts == [[s[0]] + rest[0]];
        } else {
          assert parts[1..] == rest[1..];
        }
      }
    }
  }

  /** A string without the separator splits into itself alone. */
  lemma {:induction false} SplitPlain(w: string, sep: char)
    requires sep !in w
    ensures Split(w, sep) == [w]
    decreases |w|
  {
    if |w| > 0 {
      SplitPlain(w[1..], sep);
      assert [w[0]] + w[1..] == w;
    }
  }

  /** A separator-free word followed by the separator is split off as the first part. */
  lemma {:induction false} SplitCons(w: string, sep: char, x: string)
    requires sep !in w
    ensures Split(w + [sep] + x, sep) == [w] + Split(x, sep)
    decreases |w|
  {
    var s := w + [sep] + x;
    if |w| == 0 {
      assert s[1..] == x;
    } else {
      assert s[1..] == w[1..] + [sep] + x;
      SplitCons(w[1..], sep, x);
      assert [w[0]] + w[1..] == w;
    }
  }

  /** Joining separator-free parts and splitting again gives back the parts. */
  lemma {:induction false} SplitJoin(parts: seq<string>, sep: char)
    requires |parts| >= 1
    requires forall i :: 0 <= i < |parts| ==> sep !in parts[i]
    ensures Split(Join(parts, sep), sep) == parts
    decreases |parts|
  {
    if |parts| == 1 {
      SplitPlain(parts[0], sep);
    } else {
      SplitJoin(parts[1..], sep);
      SplitCons(parts[0], sep, Join(parts[1..], sep));
      assert [parts[0]] + parts[1..] == parts;
    }
  }

  /** Position of the first `c` in `s`, if any. */
  function IndexOf(s: string, c: char): (r: Option<nat>)
    ensures r.Some? ==> r.value < |s| && s[r.value] == c
    ensures r.Some? ==> forall i :: 0 <= i < r.value ==> s[i] != c
    ensures r.None? ==> forall i :: 0 <= i < |s| ==> s[i] != c
    decreases |s|
  {
    if |s| == 0 then None
    else if s[0] == c then Some(0)
    else match IndexOf(s[1..], c)
      case None => None
      case Some(k) => Some(k + 1)
  }

  /** The first `c` in `w + [c] + x` is right after `w` when `w` has none. */
  lemma IndexOfAfterWord(w: string, c: char, x: string)
    requires c !in w
    ensures IndexOf(w + [c] + x, c) == Some(|w|)
  {
    var s := w + [c] + x;
    var r := IndexOf(s, c);
    assert s[|w|] == c;
    assert s[..|w|] == w;
  }

  predicate IsDigit(c: char) {
    '0' <= c <= '9'
  }

  predicate AllDigits(s: string) {
    forall i :: 0 <= i < |s| ==> IsDigit(s[i])
  }

  function Digit(d: nat): (c: char)
    requires d < 10
    ensures IsDigit(c)
  {
    (('0' as int) + d) as char
  }

  function DigitValue(c: char): (d: nat)
    requires IsDigit(c)
    ensures d < 10
  {
    (c as int) - ('0' as int)
  }

  /** Decimal rendering of a natural number, most significant digit first, no leading zeros. */
  function NatToDecimal(n: nat): (s: string)
    ensures |s| >= 1 && AllDigits(s)
    decreases n
  {
    if n < 10 then [Digit(n)] else NatToDecimal(n / 10) + [Digit(n % 10)]
  }

  /** The number denoted by a string of decimal digits. */
  function DecimalValue(s: string): nat
    requires AllDigits(s)
    decreases |s|
  {
    if |s| == 0 then 0 else 10 * DecimalValue(s[..|s| - 1]) + DigitValue(s[|s| - 1])
  }

  /** The decimal form of an integer as a template literal writes it: the digits,
      with a leading '-' when negative. */
  function IntToDecimal(n: int): (s: string)
    ensures |s| >= 1
    ensures forall i :: 0 <= i < |s| ==> IsDigit(s[i]) || s[i] == '-'
  {
    if n < 0 then "-" + NatToDecimal(-n) else NatToDecimal(n)
  }

  /** Reads an optionally signed decimal integer that spans the whole string. */
  function ParseDecimal(s: string): Option<int> {
    if |s| >= 2 && s[0] == '-' && AllDigits(s[1..]) then Some(0 - DecimalValue(s[1..]))
    else if |s| >= 1 && AllDigits(s) then Some(DecimalValue(s))
    else None
  }

  lemma {:induction false} NatDecimalRoundTrip(n: nat)
    ensures DecimalValue(NatToDecimal(n)) == n
    decreases n
  {
    if n >= 10 {
      NatDecimalRoundTrip(n / 10);
      var s := NatToDecimal(n);
      assert s[..|s| - 1] == NatToDecimal(n / 10);
    }
  }

  /** Rendering an integer and reading it back gives the same integer. */
  lemma IntDecimalRoundTrip(n: int)
    ensures ParseDecimal(IntToDecimal(n)) == Some(n)
  {
    var s := IntToDecimal(n);
    if n < 0 {
      NatDecimalRoundTrip(-n);
      assert s[1..] == NatToDecimal(-n);
    } else {
      NatDecimalRoundTrip(n);
      assert IsDigit(s[0]);
    }
  }
}

=== FILE: wrappers.dfy ===
/** Option and Result types for lookups and service results. */
module Wrappers {

  /** A value that may be absent: a missing header, an unset environment
      variable, a lookup that found nothing. */
  datatype Option<+T> = None | Some(value: T)

  /** The outcome of a service call: the value it returns, or the error it throws. */
  datatype Result<+R, +E> = Success(value: R) | Failure(error: E)
}
